=== FILE: README.md ===
# Entity/model engine of a document-mapping layer, in Dafny

This project models the core of `ODM.py`, a small object-document mapper over a
MongoDB collection. One generic entity is configured by a registration record.
The record holds the required names, the admissible names and an optional
location field. The model covers:

- **Registration** (`Model.init_class`). It binds the attribute sets. It lists
  the index requests: one unique index per unique field, one regular index per
  regular field, and a 2dsphere index on `<location_index>_coordinates`.
- **Construction** (`Model(**kwargs)`). A `self` keyword fails as Python's
  call does. Missing required names are rejected.
  Every key is then validated. Construction geocodes the address source when
  the location field is absent, and a geocoding failure does not stop it.
- **Attribute policy** (`__setattr__`, `__getattr__`). Only admissible,
  required or `_location_var` names are stored. On a registered class, normal
  lookup answers `_data` from the instance and `_location_var`,
  `_required_vars`, `_admissible_vars` and `_db` from the class. Any other name
  is read from the bag by `__getattr__`, and reading it fails when it is not
  there.
- **Persistence** (`save`, `delete`, `find`). The collection is a sequence of
  documents in natural order, and each document carries its `_id`. `save` is an
  upsert with `$set` merge semantics. It matches by `_id` when that is truthy,
  else by `name`, and it captures the written document's `_id`. `delete` needs a
  truthy `_id` and sets it to None when a document was removed.
- **Result cursor** (`ModelCursor.__iter__`). It yields the entities of the
  raw documents in order. It stops at the first document that fails
  construction. Like the source's cursor, it is generic in the model class:
  `Cursor.ModelClass` is the constructor of the class a registration configures.
- **Address resolver** (`getLocationPoint`). It makes at most five lookups and
  retries on timeouts and empty results. It returns `[longitude, latitude]`
  from the first lookup that finds a location. Any other exception propagates.

Modules: `Results` (Option, Result, errors), `Values` (BSON values,
truthiness, GeoJSON points), `Names` (the `_coordinates` suffix, lower-casing),
`Geocoding`, `Registry`, `Entity`, `Persistence`, `Cursor`, and `ReadBack`
(saving an entity and finding it again).

The geocoding service is a parameter `Geocoder`. It maps an address value to
the outcomes of its successive lookups: `TimedOut`, `NoMatch`,
`Found(lon, lat)` or `ServiceError`. A lookup past the end of that list returns
no location. The ObjectId the store assigns on insert is one more than the
largest ObjectId in use.

Choices the model follows from the code:

- Validation compares the lower-cased key (ODM.py:160). So `NAME` is accepted
  when `name` is declared, as `Entity.UpperCaseKeyAdmitted` shows. The
  location field's address source is also exempt, even when it is not declared
  (ODM.py:156).
- A caller may supply the location field at construction. Its value is kept
  verbatim, and geocoding is then skipped (ODM.py:129).
- `__setattr__` admits the literal name `_location_var`, not the location field
  (ODM.py:183). Other names are dropped with a message, not rejected.
- Geocoding happens both at construction and at save.
- `save` always upserts. It does not insert by itself, and it never reports a
  duplicate key.
- The location source is computed by removing every occurrence of
  `_coordinates`, not only the trailing suffix (ODM.py:126, ODM.py:215).
  `Names.StripAfterAppend` proves that this recovers the location index name
  when that name does not itself contain `_coordinates`.

## Model

| member | source | states |
|---|---|---|
| Names.StripCoordinates | ODM.py:126 | the result never grows; it is strictly shorter when the name contains `_coordinates`, and equal to the name when it does not |
| Names.StripAfterAppend | ODM.py:383 | appending `_coordinates` and then removing it gives back the location index name, provided that name does not contain `_coordinates` |
| Names.SuffixedNameIsStripped | ODM.py:215 | a name built by appending `_coordinates` always changes when the suffix is removed, so the source field differs from the location field |
| Values.GeoPointRoundTrip | ODM.py:137-140 | the stored point and its reading are inverse: a value reads back as `(lon, lat)` exactly when it is the `{"type": "Point", "coordinates": [lon, lat]}` built from them, so the longitude is stored first and nothing else is stored |
| Geocoding.ResolveFromDecided | ODM.py:43-57 | the reference definition `ResolveFrom` of the retry loop is exhausted exactly when every remaining attempt up to the fifth is a timeout or empty; a located point or a raised error comes from the first non-transient attempt, and every attempt before it was transient |
| Geocoding.LocatedPointDecodes | ODM.py:51-52 | a located address stores a point that reads back as the longitude and latitude of a lookup that found it, longitude first |
| Geocoding.GetLocationPoint | ODM.py:40-57 | the loop agrees with the reference definition; it makes between 1 and 5 lookups, all but the last transient; it returns the last lookup's `[lon, lat]` when located; it fails with ValueError only after five transient lookups |
| Geocoding.OnlyFirstFiveConsulted | ODM.py:43-44 | outcomes after the fifth lookup never change the result |
| Registry.Requests | ODM.py:374-378 | one index request of the given kind per listed field, in order |
| Registry.InitClass | ODM.py:367-389 | binds the required and admissible sets; it sets the location field to `location_index + "_coordinates"` exactly when `location_index` is truthy; it requests unique indexes, then regular ones, then one 2dsphere index on the location field |
| Registry.LocationSource | ODM.py:215 | there is an address source exactly when the location field is truthy; it is never longer than the location field, and differs from it whenever the field contains `_coordinates`, so geocoding never overwrites the address it reads |
| Registry.LocationSourceRecovered | ODM.py:381-389 | the registration is well formed; when a location index is given, the source that construction and save geocode from is that index name, if the name has no `_coordinates` inside; without one there is no source |
| Entity.Geocoded | ODM.py:129-144 | only the location field can be added or changed; it is added exactly when it was absent and the address resolves; a resolved address puts its point there; a failure keeps the value the field had |
| Entity.AdmissionIgnoresCase | ODM.py:159-161 | validation ignores the case of declared names: two keys that lower-case alike are admitted alike, unless one of them is `_id`, the location field or its source |
| Entity.Construct | ODM.py:103-164 | a `self` keyword fails with TypeError, as Python's call does before `__init__` runs; otherwise fails with the missing names exactly when a required name is absent (exact match); otherwise fails with a non-empty set of offending keys exactly when some key is not admitted; on success every input value is kept verbatim and the only possible addition is the location field, holding the resolved point, present exactly when the resolution succeeded |
| Entity.SetAttr | ODM.py:166-188 | assigning `_data` needs a dictionary and replaces the bag; an admissible, required or `_location_var` name is stored with the value; any other name leaves the bag unchanged; no other key changes |
| Entity.GetAttr | ODM.py:190-203 | `__getattr__` raises AttributeError for a class-level name, because it runs only after the normal lookup failed and `super().__getattribute__` repeats that lookup; any other name returns its bag value, or AttributeError exactly when the name is not in the bag |
| Entity.Lookup | ODM.py:190-203 | reading an attribute of an entity of a registered class: `_data` gives the bag itself; `_location_var` gives the class's location field or None (ODM.py:383, 389); `_required_vars`, `_admissible_vars` and `_db` are answered by the class (ODM.py:367-369); only `_modified_vars` among the class-level names raises; every other name agrees with `__getattr__` |
| Entity.ReadAfterWrite | ODM.py:183-203 | reading an assigned name gives the assigned value; reading a dropped name that was never stored fails with AttributeError; a value stored under the literal `_location_var` is in the bag but reading `_location_var` gives the class's location field, not that value |
| Entity.ConstructedKeysAdmitted | ODM.py:149-164 | every key of a constructed bag is `_id`, the location field, its source, or lower-cases to a declared name |
| Entity.ConstructionIndependentOfGeocoder | ODM.py:129-144 | whether construction succeeds does not depend on the geocoder: it succeeds exactly when there is no `self` keyword, all required names are present and every key is admitted |
| Entity.UpperCaseKeyAdmitted | ODM.py:160 | with `name` required, `{name, NAME}` is accepted, and the bag holds `NAME`, which is neither required nor admissible |
| Entity.UndeclaredKeyRejected | ODM.py:159-161 | with only `sku` declared, `{sku, color}` is rejected, naming `color` |
| Persistence.FirstMatchFrom | ODM.py:242 | the document the driver acts on is the first match in natural order, or there is none |
| Persistence.MaxObjectId | ODM.py:244-245 | bounds every ObjectId in the collection |
| Persistence.FreshId | ODM.py:244-245 | the id assigned on insert is a truthy ObjectId no document has |
| Persistence.SaveQuery | ODM.py:237-240 | the match key is `_id` exactly when the bag's `_id` is present and truthy; otherwise it is the bag's `name`, None when absent; either way the query selects the entity's own data |
| Persistence.UpsertedDoc | ODM.py:242 | an upserted document holds the `$set` fields, an `_id` taken from the query or fresh, and at most the query's `name` besides; that `name`, even None, is always added when the `$set` has none |
| Persistence.GeocodeOnSave | ODM.py:212-231 | only the location field can change; it gets the resolved point when the source is present and resolves; otherwise the bag is unchanged |
| Persistence.Upsert | ODM.py:242 | `update_one(..., upsert=True)` inserts exactly when nothing matches; otherwise it `$set`s the payload onto the first match |
| Persistence.FirstMatchAfterSet | ODM.py:248-250 | after the update, `find_one(query)` finds the document just updated |
| Persistence.Persist | ODM.py:233-251 | the bag keeps its fields and gains the written document's `_id`; that document holds every bag field; it inserts exactly when no document matches the query, and the inserted document is the driver's upsert of the query and the bag; an update writes the first document matching the query, keeps its `_id`, which the bag captures, merges in the bag's other fields, and changes no other document |
| Persistence.Save | ODM.py:205-251 | the entity afterwards is its geocoded bag with the captured `_id`; every field other than the location field is written as the entity holds it; it inserts exactly when no document matches the save query of the geocoded entity; an insert appends the upserted document of the geocoded entity, whose `_id` is the entity's own or, when it matched by name, a fresh one, and leaves the others as they were; an update writes the first document matching that query, keeps its `_id`, and changes no other document; without an address source in the entity nothing is geocoded; with one, a resolved point is written under the location field, and on a failure the previous location value is kept and a newly inserted document gets no location field |
| Persistence.GeocodingKeepsQuery | ODM.py:213-240 | geocoding on save changes the save query only when the location field is `_id` or `name` |
| Persistence.SaveKeepsStoreWellFormed | ODM.py:233-251 | after `save`, ids stay present, truthy and unique, and the bag's `_id` is truthy |
| Persistence.UpsertKeepsWellFormed | ODM.py:237-245 | an upsert whose `$set` has no `_id`, matching on a truthy `_id` or on `name`, keeps ids present, truthy and unique |
| Persistence.SaveTwiceKeepsOneDocument | ODM.py:237-250 | a second `save` of the saved entity updates the same document; the collection keeps its size and the entity keeps its `_id` |
| Persistence.FirstMatchIsUniqueId | ODM.py:238 | with unique ids, the match for a document's own id is that document |
| Persistence.FindById | ODM.py:303 | with unique ids, `find({"_id": id})` returns exactly the document with that id |
| Persistence.SaveThenFind | ODM.py:242-250 | after `save`, finding by the entity's `_id` returns one document, and it holds every field of the entity |
| Persistence.Delete | ODM.py:253-283 | fails with NotPersisted exactly when `_id` is absent or falsy; removes the first document matching that id exactly when one exists, and then sets `_id` to None; otherwise nothing changes; no other bag field changes |
| Persistence.RemovalKeepsWellFormed | ODM.py:267 | removing one document keeps ids well formed, and no remaining document has the removed id |
| Persistence.DeleteKeepsStoreWellFormed | ODM.py:263-275 | `delete` keeps ids well formed; after a successful delete, no document has the entity's old id |
| Persistence.DeleteTwiceFails | ODM.py:259-275 | a second `delete` after a successful one fails with NotPersisted |
| Persistence.SaveThenDelete | ODM.py:259-275 | deleting a saved entity removes exactly its document; finding by the old id returns nothing, and the bag's `_id` becomes falsy |
| Persistence.Find | ODM.py:286-306 | the result holds exactly the collection's documents that satisfy the filter; it is empty exactly when none does |
| Persistence.FindKeepsOrder | ODM.py:303 | `find` keeps natural order: the documents selected from one part of the collection come before those selected from a later part |
| Cursor.Materialize | ODM.py:433-453 | the yielded entities are built from the documents at the same positions; there are at most as many as documents; the document after the last yielded one fails construction |
| Cursor.Iterate | ODM.py:424-453 | the generator loop yields the same entities as the reference definition, with the same prefix properties |
| Cursor.SameEntities | ODM.py:436-449 | entities built from every document of a prefix, followed by the end of the stream or a failed construction, are exactly what the cursor yields |
| Cursor.YieldsLongestValidPrefix | ODM.py:438-449 | when the first `n` documents construct and the next one does not, exactly `n` entities are yielded |
| Cursor.ModelClass | ODM.py:440 | `self.model(**doc)` accepts exactly the documents without a `self` key that hold every required name and only admitted keys, and keeps their values verbatim |
| Cursor.FindModels | ODM.py:286-306 | `find` followed by iteration yields entities built from documents that are in the collection and satisfy the filter, in the order `find` returns them, and goes on until the first selected document that fails construction |
| ReadBack.SavedDocumentFound | ODM.py:242-250 | after `save`, finding by the entity's `_id` selects exactly the written document |
| ReadBack.SavedEntityReadBack | ODM.py:205-251 | after `save`, finding by `_id` reads the entity back with every field it had, whenever the stored document is a valid entity of the class: no `self` key, every required name, only admitted keys |
| ReadBack.InsertedEntityReadBack | ODM.py:237-245 | a newly inserted entity with a `name`, every required name and only admitted keys is read back with every field |
| ReadBack.InvalidDocumentNotReadBack | ODM.py:438-449 | a saved document holding a key the class does not admit is never read back: the cursor stops at it |
| ReadBack.NamelessEntityNotReadBack | ODM.py:237-242 | an entity with neither `_id` nor `name` is inserted with `name: null`; a class that does not admit `name` then cannot read it back by `_id` |
| ReadBack.NamelessThing | ODM.py:149-164 | with only `sku` declared, `Thing(sku="A1")` constructs without `_id` or `name`, and `name` is not admitted |
| ReadBack.ThingNotReadBack | ODM.py:237-242 | `Thing(sku="A1")`, saved into an empty collection, is not found by its `_id` |
| ReadBack.StoredLocationVarNotReadBack | ODM.py:183 | a stored `_location_var` key is written by `save`; a class that does not admit it cannot read the entity back |
| ReadBack.LocationVarRejected | ODM.py:149-161 | a class with `name` required and no location field does not admit `_location_var` |

## Left out

- The network geocoder (Nominatim, the random user agent, `time.sleep(1)`). It is replaced by the `Geocoder` outcome lists. The address value is passed to it unchanged.
- Coordinates are opaque values. The model never does arithmetic on them.
- Geocoding.Found: `geojson.Point` (ODM.py:52) rounds each coordinate to 6 decimals, its default precision, before the point is stored. `Found` carries the coordinates already rounded, so `Geocoding.LocatedPointDecodes` and `Values.GeoPointRoundTrip` read back the rounded values, not the service's raw ones.
- Entity.SetAttr: values are immutable and copied. Assigning `_data` (ODM.py:178) makes the caller's own dictionary the bag, so later changes to that dictionary bypass `__setattr__` and reach `save`. This aliasing is not modelled.
- The pymongo driver is replaced by an in-memory sequence of documents. Index creation is only listed as requests. The driver's idempotent index creation, index conflicts and unique-index enforcement are not modelled. The code never handles DuplicateKeyError either.
- Exceptions raised by the driver are not modelled. This includes the `except Exception` around `delete_one` (ODM.py:282-283).
- `$set` with dotted field names (nested paths) is treated as a top-level field.
- `Model.aggregate` (ODM.py:308-326) is left out. It is a pass-through to the driver, and it references `cls.db` rather than `cls._db`.
- `Model.find_by_id` (ODM.py:328-346) is left out because it is an unimplemented stub.
- `initApp` (ODM.py:455-502) is left out. It connects to the database, loads YAML and synthesises classes at runtime.
- The `__main__` demo is left out. It loads JSON and runs pytest.
- `scripts/populate_db.py` and `aggregate_queries.py` are left out. They are callers of the public operations, or server-side pipelines.
- Printed messages are modelled only as flags: `Saved.inserted` and `Deleted.deleted`.
- Names that Python finds by normal attribute lookup never reach `__getattr__`. `Entity.Lookup` models this for `_data`, `_location_var`, `_required_vars`, `_admissible_vars` and `_db`. The values of `_required_vars`, `_admissible_vars` and `_db` are not document values, so `Lookup` reports only that the class answers them. The methods of `Model` and dunder names are not modelled. An entity of a class `init_class` never registered is not modelled either.
- Names.Lower: lower-cases ASCII letters only. Python's `str.lower` also folds non-ASCII letters.
- Entity.Construct: the InvalidField error carries every offending key. ODM.py:161 reports only the first one in dictionary order, which an unordered map cannot express. The geocoding attempted before validation fails has no observable effect in the model.
- Persistence.FreshId: picks one more than the largest ObjectId in use, as a deterministic stand-in for the driver's id generation.
- Persistence.SaveTwiceKeepsOneDocument: assumes the location field is not `_id`. That holds for every registration made by `init_class`.
- Persistence.Matches: matching is literal equality on `_id` or `name`. The driver also matches an array field by its elements, compares integers and floats numerically, and reads a dictionary value with `$` keys as an operator, so such a `name` would select other documents.
- Geocoding.Geocoder: the service gives the same outcomes every time one address is resolved. So geocoding at construction and again at save always agree, where the real service may answer differently.
- ReadBack.SavedEntityReadBack: the round trip is stated only for a stored document that is a valid entity of its class, because the code as written can store documents its class rejects (see Findings).

## Findings

| source | as written | input that shows it | evidently intended | confidence | as-written member | corrected member |
|---|---|---|---|---|---|---|
| ODM.py:237-242 | an entity without `_id` or `name` is saved with the upsert query `{"name": None}`, which puts `name: null` into the inserted document | with only `sku` declared, `Thing(sku="A1")` saved into an empty collection; the stored document has `name: null`, which the class rejects, so finding it by its `_id` yields nothing (`ReadBack.ThingNotReadBack`) | saving an entity and finding it by `_id` reads the entity back | not executed | ReadBack.NamelessEntityNotReadBack | ReadBack.SavedEntityReadBack |
| ODM.py:183 | `__setattr__` stores the literal key `_location_var`, which `save` writes and construction (ODM.py:149-161) rejects | with `name` required, `setattr(Thing(name="A"), "_location_var", "x")`, then save; finding it by its `_id` yields nothing (`ReadBack.LocationVarRejected`) | only names the class admits reach the stored document, so the entity can be read back | not executed | ReadBack.StoredLocationVarNotReadBack | ReadBack.SavedEntityReadBack |

=== FILE: cursor.dfy ===
/** `ModelCursor.__iter__`: turns the raw documents of a query into entities,
    one at a time, stopping at the first document that is not a valid entity.
    The cursor is generic in the model class it was built with; `Builder` is
    that class's constructor applied to one document. */
module Cursor {
  import opened Results
  import opened Values
  import opened Geocoding
  import opened Registry
  import opened Entity
  import opened Persistence

  /** `self.model(**document)`: an entity, or the error that construction raised. */
  type Builder = Doc -> Result<Bag>

  /** The entities the cursor yields, as a reference definition. */
  function Materialize(build: Builder, raw: seq<Doc>): (r: seq<Bag>)
    ensures |r| <= |raw|
    ensures forall i :: 0 <= i < |r| ==> build(raw[i]) == Ok(r[i])
    ensures |r| < |raw| ==> build(raw[|r|]).Err?
  {
    if raw == [] then []
    else
      match build(raw[0])
      case Err(_) => []
      case Ok(entity) => [entity] + Materialize(build, raw[1..])
  }

  /** The generator loop: pull the next document, build the entity, yield it;
      stop at the end of the stream or at the first failed construction. */
  method Iterate(build: Builder, raw: seq<Doc>) returns (models: seq<Bag>)
    ensures |models| <= |raw|
    ensures forall i :: 0 <= i < |models| ==> build(raw[i]) == Ok(models[i])
    ensures |models| < |raw| ==> build(raw[|models|]).Err?
    ensures models == Materialize(build, raw)
  {
    models := [];
    var next := 0;
    while next < |raw|
      invariant next <= |raw| && |models| == next
      invariant forall i :: 0 <= i < next ==> build(raw[i]) == Ok(models[i])
    {
      var built := build(raw[next]);
      if built.Err? {
        SameEntities(build, raw, models);
        return;
      }
      models := models + [built.value];
      next := next + 1;
    }
    SameEntities(build, raw, models);
  }

  /** Entities built from every document of a prefix, followed by the end of
      the stream or a failed construction, are what the cursor yields. */
  lemma SameEntities(build: Builder, raw: seq<Doc>, models: seq<Bag>)
    requires |models| <= |raw|
    requires forall i :: 0 <= i < |models| ==> build(raw[i]) == Ok(models[i])
    requires |models| < |raw| ==> build(raw[|models|]).Err?
    ensures models == Materialize(build, raw)
  {
    var m := Materialize(build, raw);
    YieldsLongestValidPrefix(build, raw, |models|);
    assert forall i :: 0 <= i < |models| ==> build(raw[i]) == Ok(m[i]);
  }

  /** The longest-prefix property: the cursor yields exactly the entities of the
      documents before the first invalid one, and all of them if none is. */
  lemma {:induction false} YieldsLongestValidPrefix(build: Builder, raw: seq<Doc>, n: nat)
    requires n <= |raw|
    requires forall i :: 0 <= i < n ==> build(raw[i]).Ok?
    requires n < |raw| ==> build(raw[n]).Err?
    ensures |Materialize(build, raw)| == n
    decreases n
  {
    if n > 0 {
      assert forall i :: 0 <= i < n - 1 ==> raw[1..][i] == raw[i + 1];
      YieldsLongestValidPrefix(build, raw[1..], n - 1);
    }
  }

  /** The constructor of the entity class a registration configures. */
  function ModelClass(reg: Registration, geocoder: Geocoder): (build: Builder)
    // the class accepts exactly the documents without a `self` key that hold
    // every required name and only admitted keys, and keeps their values verbatim
    ensures forall doc :: build(doc).Ok? <==>
              SelfParameter !in doc && reg.required <= doc.Keys && forall k :: k in doc ==> Admitted(reg, k)
    ensures forall doc :: build(doc).Ok? ==>
              forall k :: k in doc ==> k in build(doc).value && build(doc).value[k] == doc[k]
  {
    doc => Construct(reg, doc, geocoder)
  }

  /** `Model.find(filter)` followed by iteration: the entities of the selected
      documents, in the order `find` returns them, up to the first invalid one. */
  function FindModels(reg: Registration, store: Store, filter: Doc -> bool, geocoder: Geocoder): (r: seq<Bag>)
    ensures |r| <= |Find(store, filter)|
    ensures forall i :: 0 <= i < |r| ==>
              var doc := Find(store, filter)[i];
              doc in store && filter(doc) && Construct(reg, doc, geocoder) == Ok(r[i])
    // it goes on until the first selected document that fails construction
    ensures |r| < |Find(store, filter)| ==> Construct(reg, Find(store, filter)[|r|], geocoder).Err?
  {
    Materialize(ModelClass(reg, geocoder), Find(store, filter))
  }
}

=== FILE: entity.dfy ===
/** An entity instance: construction (`Model.__init__`) and the attribute
    read/write policy (`__getattr__`, `__setattr__`). An entity is its data
    bag; the class-level state is the `Registration` it was built against. */
module Entity {
  import opened Results
  import opened Values
  import opened Names
  import opened Geocoding
  import opened Registry

  /** The key the document store uses for the identifier. */
  const IdKey: string := "_id"

  /** The parameter `__init__` binds to the new entity. A keyword argument of
      that name clashes with it, and the call fails before `__init__` runs. */
  const SelfParameter: string := "self"

  /** The literal attribute name `__setattr__` admits besides the declared ones. */
  const LocationVarAttr: string := "_location_var"

  /** Names `__getattr__` hands back to the normal attribute lookup instead of
      reading them from the bag. That lookup has already failed when
      `__getattr__` runs, so for these names it fails again. */
  const ClassLevelNames: set<string> :=
    {"_modified_vars", "_required_vars", "_admissible_vars", "_db", "_data", "_location_var"}

  /** The configuration names `init_class` binds on the class besides
      `_location_var`: sets of names and the collection handle. */
  const ConfigurationNames: set<string> := {"_required_vars", "_admissible_vars", "_db"}

  /** What reading an attribute gives: a value, or a configuration attribute
      of the class, which is not a document value. */
  datatype Attribute = Field(value: Value) | ClassAttribute(name: string)

  /** Required names absent from the input, compared exactly. */
  function MissingNames(reg: Registration, kwargs: Bag): (r: set<string>)
  {
    set n | n in reg.required && n !in kwargs
  }

  /** The keys validation skips: the identifier, the location field and its
      address source, compared exactly. */
  predicate Exempt(reg: Registration, key: string)
  {
    || key == IdKey
    || reg.locationVar == Some(key)
    || LocationSource(reg) == Some(key)
  }

  /** A key the construction-time validation lets through: an exempt key, or a
      name whose lower-cased form is required or admissible. */
  predicate Admitted(reg: Registration, key: string)
  {
    || Exempt(reg, key)
    || Lower(key) in reg.admissible
    || Lower(key) in reg.required
  }

  /** Validation ignores the case of declared names: two keys that lower-case
      alike are admitted alike, unless one of them is exempt. */
  lemma AdmissionIgnoresCase(reg: Registration, key: string, other: string)
    requires Lower(key) == Lower(other)
    requires !Exempt(reg, key) && !Exempt(reg, other)
    ensures Admitted(reg, key) <==> Admitted(reg, other)
  {
  }

  function InvalidNames(reg: Registration, kwargs: Bag): (r: set<string>)
  {
    set k | k in kwargs && !Admitted(reg, k)
  }

  /** `bag` with the location field set to the geocoded point of the address
      source, when the address resolves; `bag` itself otherwise (a failure of
      the resolver is caught and only reported). */
  function Geocoded(reg: Registration, bag: Bag, geocoder: Geocoder): (r: Bag)
    requires LocationSource(reg).Some? && LocationSource(reg).value in bag
    // only the location field can be added or changed; it is added exactly
    // when it was absent and the address resolves
    ensures forall k :: k in r <==>
              k in bag || (k == reg.locationVar.value && Resolve(geocoder(bag[LocationSource(reg).value])).Located?)
    ensures forall k :: k in bag && k != reg.locationVar.value ==> r[k] == bag[k]
    // a resolved address puts its point there
    ensures Resolve(geocoder(bag[LocationSource(reg).value])).Located? ==>
              r[reg.locationVar.value] == Resolve(geocoder(bag[LocationSource(reg).value])).point
    // a failure keeps the value the field had
    ensures !Resolve(geocoder(bag[LocationSource(reg).value])).Located? && reg.locationVar.value in bag ==>
              r[reg.locationVar.value] == bag[reg.locationVar.value]
  {
    var address := bag[LocationSource(reg).value];
    match Resolve(geocoder(address))
    case Located(point) => bag[reg.locationVar.value := point]
    case _ => bag
  }

  /** Construction geocodes when a location field is configured, its source is
      given and the field itself is not. */
  predicate GeocodesOnConstruction(reg: Registration, kwargs: Bag)
  {
    && LocationSource(reg).Some?
    && LocationSource(reg).value in kwargs
    && reg.locationVar.value !in kwargs
  }

  /** `Model(**kwargs)`: the data bag of the new entity, or the error. */
  function Construct(reg: Registration, kwargs: Bag, geocoder: Geocoder): (r: Result<Bag>)
    // a `self` keyword clashes with the bound parameter
    ensures r == Err(ArgumentClash(SelfParameter)) <==> SelfParameter in kwargs
    // missing required names are reported next, all of them
    ensures r == Err(MissingRequired(MissingNames(reg, kwargs))) <==>
              SelfParameter !in kwargs && !(reg.required <= kwargs.Keys)
    // otherwise every key must pass validation
    ensures r.Err? && r.error.InvalidField? <==>
              SelfParameter !in kwargs && reg.required <= kwargs.Keys && exists k :: k in kwargs && !Admitted(reg, k)
    ensures r.Err? && r.error.InvalidField? ==>
              r.error.invalid != {} && forall k :: k in r.error.invalid ==> k in kwargs && !Admitted(reg, k)
    // a success keeps every given value verbatim
    ensures r.Ok? ==> kwargs.Keys <= r.value.Keys && forall k :: k in kwargs ==> r.value[k] == kwargs[k]
    // and adds at most the location field, holding the resolved point
    ensures r.Ok? ==> forall k :: k in r.value && k !in kwargs ==>
              && GeocodesOnConstruction(reg, kwargs)
              && reg.locationVar == Some(k)
              && Resolve(geocoder(kwargs[LocationSource(reg).value])).Located?
              && r.value[k] == Resolve(geocoder(kwargs[LocationSource(reg).value])).point
    ensures r.Ok? && GeocodesOnConstruction(reg, kwargs) ==>
              (reg.locationVar.value in r.value <==> Resolve(geocoder(kwargs[LocationSource(reg).value])).Located?)
  {
    if SelfParameter in kwargs then
      Err(ArgumentClash(SelfParameter))
    else if !(reg.required <= kwargs.Keys) then
      Err(MissingRequired(MissingNames(reg, kwargs)))
    else
      var withLocation := if GeocodesOnConstruction(reg, kwargs) then Geocoded(reg, kwargs, geocoder) else kwargs;
      assert forall k :: k in withLocation && k !in kwargs ==> reg.locationVar == Some(k);
      var invalid := InvalidNames(reg, withLocation);
      if invalid != {} then Err(InvalidField(invalid))
      else
        assert forall k :: k in kwargs ==> k in withLocation && k !in invalid;
        Ok(withLocation)
  }

  /** `__setattr__` stores a name when it is admissible, required or the
      literal "_location_var". */
  predicate Assignable(reg: Registration, name: string)
  {
    name in reg.admissible || name in reg.required || name == LocationVarAttr
  }

  /** `setattr(entity, name, value)`: the data bag afterwards. Assigning `_data`
      replaces the whole bag and needs a dictionary; any other name is stored
      when assignable and otherwise dropped with a message. */
  function SetAttr(reg: Registration, bag: Bag, name: string, value: Value): (r: Result<Bag>)
    ensures name == "_data" ==> (r.Ok? <==> value.Object?) && (r.Ok? ==> r.value == value.fields)
    ensures name == "_data" && r.Err? ==> r.error == DataNotDict
    ensures name != "_data" ==> r.Ok?
    ensures name != "_data" && Assignable(reg, name) ==>
              name in r.value && r.value[name] == value
    ensures name != "_data" ==>
              forall k :: k != name ==> (k in r.value <==> k in bag) && (k in bag ==> r.value[k] == bag[k])
    ensures name != "_data" && !Assignable(reg, name) ==> r.value == bag
  {
    if name == "_data" then
      if value.Object? then Ok(value.fields) else Err(DataNotDict)
    else if Assignable(reg, name) then Ok(bag[name := value])
    else Ok(bag)
  }

  /** `__getattr__`, which runs for a name Python's normal lookup did not
      find. A class-level name is looked up again with
      `super().__getattribute__`, which fails as the first lookup did; any
      other name is read from the bag. `Lookup` is the read as a whole. */
  function GetAttr(bag: Bag, name: string): (r: Result<Value>)
    ensures name in ClassLevelNames ==> r == Err(AttributeNotFound(name))
    ensures name !in ClassLevelNames ==> (r.Ok? <==> name in bag)
    ensures r.Ok? ==> name in bag && r.value == bag[name]
    ensures r.Err? ==> r.error == AttributeNotFound(name)
  {
    if name in ClassLevelNames then Err(AttributeNotFound(name))
    else if name in bag then Ok(bag[name])
    else Err(AttributeNotFound(name))
  }

  /** The class attribute `_location_var` as a value: the location field
      `init_class` derived, or None. */
  function LocationVarValue(reg: Registration): (v: Value)
    ensures v == Null <==> reg.locationVar.None?
    ensures v != Null ==> v == Str(reg.locationVar.value)
  {
    match reg.locationVar
    case Some(lv) => Str(lv)
    case None => Null
  }

  /** `entity.name` on an entity of a class `init_class` has registered.
      Normal lookup finds the instance's `_data` (the bag itself) and the
      class's `_location_var` and configuration names; every other name
      reaches `__getattr__`. */
  function Lookup(reg: Registration, bag: Bag, name: string): (r: Result<Attribute>)
    ensures name == "_data" ==> r == Ok(Field(Object(bag)))
    ensures name == LocationVarAttr ==> r == Ok(Field(LocationVarValue(reg)))
    ensures name in ConfigurationNames ==> r == Ok(ClassAttribute(name))
    // only `_modified_vars` is left for `__getattr__` to re-raise
    ensures name in ClassLevelNames ==> (r.Err? <==> name == "_modified_vars")
    ensures name !in ClassLevelNames ==> (r.Ok? <==> name in bag) && (r.Ok? ==> r.value == Field(bag[name]))
    // every name normal lookup misses is answered by `__getattr__`
    ensures name != "_data" && name != LocationVarAttr && name !in ConfigurationNames ==>
              (r.Ok? <==> GetAttr(bag, name).Ok?) && (r.Ok? ==> r.value == Field(GetAttr(bag, name).value))
  {
    if name == "_data" then Ok(Field(Object(bag)))
    else if name == LocationVarAttr then Ok(Field(LocationVarValue(reg)))
    else if name in ConfigurationNames then Ok(ClassAttribute(name))
    else
      match GetAttr(bag, name)
      case Ok(v) => Ok(Field(v))
      case Err(e) => Err(e)
  }

  /** Reading back an assigned name gives the assigned value; a dropped name
      that was never in the bag cannot be read. `__getattr__` re-raises for a
      class-level name; on a registered class normal lookup answers
      `_location_var` from the class, so a value `__setattr__` stored under
      that literal name is never read back. */
  lemma ReadAfterWrite(reg: Registration, bag: Bag, name: string, value: Value)
    requires name != "_data"
    ensures Assignable(reg, name) && name !in ClassLevelNames ==>
              && GetAttr(SetAttr(reg, bag, name, value).value, name) == Ok(value)
              && Lookup(reg, SetAttr(reg, bag, name, value).value, name) == Ok(Field(value))
    ensures !Assignable(reg, name) && name !in bag ==>
              GetAttr(SetAttr(reg, bag, name, value).value, name) == Err(AttributeNotFound(name))
    ensures !Assignable(reg, name) && name !in bag && name !in ConfigurationNames ==>
              Lookup(reg, SetAttr(reg, bag, name, value).value, name) == Err(AttributeNotFound(name))
    ensures name in ClassLevelNames ==>
              GetAttr(SetAttr(reg, bag, name, value).value, name) == Err(AttributeNotFound(name))
    ensures name == LocationVarAttr ==>
              && name in SetAttr(reg, bag, name, value).value
              && SetAttr(reg, bag, name, value).value[name] == value
              && Lookup(reg, SetAttr(reg, bag, name, value).value, name) == Ok(Field(LocationVarValue(reg)))
  {
  }

  /** Every key of a constructed bag passed validation. */
  lemma ConstructedKeysAdmitted(reg: Registration, kwargs: Bag, geocoder: Geocoder)
    requires Construct(reg, kwargs, geocoder).Ok?
    ensures forall k :: k in Construct(reg, kwargs, geocoder).value ==> Admitted(reg, k)
  {
  }

  /** Construction succeeds exactly when there is no `self` keyword, no
      required name is missing and every given key is admitted, whatever the
      geocoder does. */
  lemma ConstructionIndependentOfGeocoder(reg: Registration, kwargs: Bag, g1: Geocoder, g2: Geocoder)
    ensures Construct(reg, kwargs, g1).Ok? <==> Construct(reg, kwargs, g2).Ok?
    ensures Construct(reg, kwargs, g1).Ok? <==>
              SelfParameter !in kwargs && reg.required <= kwargs.Keys && forall k :: k in kwargs ==> Admitted(reg, k)
  {
  }

  /** Validation compares lower-cased keys while the missing-name check is
      exact, so a bag may hold a key that is neither required nor admissible. */
  lemma UpperCaseKeyAdmitted(geocoder: Geocoder)
    ensures var reg := Registration({"name"}, {}, None);
            var kwargs := map["name" := Str("X"), "NAME" := Str("Y")];
            && Construct(reg, kwargs, geocoder).Ok?
            && "NAME" in Construct(reg, kwargs, geocoder).value
            && "NAME" !in reg.required + reg.admissible
  {
    var reg := Registration({"name"}, {}, None);
    assert Lower("NAME") == "name";
    assert Lower("name") == "name";
    var kwargs := map["name" := Str("X"), "NAME" := Str("Y")];
    assert forall k :: k in kwargs ==> Admitted(reg, k);
  }

  /** A key outside the declared names is rejected: `Thing(sku="A1",
      color="red")` with only `sku` declared fails on `color`. */
  lemma UndeclaredKeyRejected(geocoder: Geocoder)
    ensures var reg := Registration({"sku"}, {}, None);
            Construct(reg, map["sku" := Str("A1"), "color" := Str("red")], geocoder)
              == Err(InvalidField({"color"}))
  {
    var reg := Registration({"sku"}, {}, None);
    var kwargs := map["sku" := Str("A1"), "color" := Str("red")];
    assert Lower("sku") == "sku";
    assert Lower("color") == "color";
    assert InvalidNames(reg, kwargs) == {"color"};
  }
}

=== FILE: geocoding.dfy ===
/** The address resolver `getLocationPoint`: up to five lookups against the
    geocoding service, retrying on timeouts and on empty results. */
module Geocoding {
  import opened Results
  import opened Values

  const MaxAttempts: nat := 5

  /** What one lookup against the service gives. */
  datatype Attempt =
    | TimedOut                                     // GeocoderTimedOut
    | NoMatch                                      // the lookup returned no location
    | Found(longitude: Coord, latitude: Coord)     // a location
    | ServiceError                                 // any other exception

  /** The outcome of resolving one address. */
  datatype Resolution =
    | Located(point: Value)   // the GeoJSON point, longitude first
    | Exhausted               // ValueError after the last attempt
    | Raised                  // another exception, propagated at once

  /** The service, as the outcomes its successive lookups give for an address. */
  type Geocoder = Value -> seq<Attempt>

  /** The outcome of lookup number `k` (from 0); a lookup past the end of the
      list returns no location. */
  function AttemptAt(attempts: seq<Attempt>, k: nat): (a: Attempt)
  {
    if k < |attempts| then attempts[k] else NoMatch
  }

  /** An attempt after which the loop moves on to the next one. */
  predicate Transient(a: Attempt)
  {
    a.TimedOut? || a.NoMatch?
  }

  /** The result of the retry loop once lookups `0 .. k-1` were transient. */
  function ResolveFrom(attempts: seq<Attempt>, k: nat): (r: Resolution)
    requires k <= MaxAttempts
    decreases MaxAttempts - k
  {
    if k == MaxAttempts then Exhausted
    else
      match AttemptAt(attempts, k)
      case Found(lon, lat) => Located(GeoPoint(lon, lat))
      case ServiceError => Raised
      case _ => ResolveFrom(attempts, k + 1)
  }

  /** What the retry loop returns, from attempt `k` on: it is exhausted exactly
      when every remaining attempt up to the fifth is transient; otherwise the
      first non-transient attempt decides, located or raised. */
  lemma {:induction false} ResolveFromDecided(attempts: seq<Attempt>, k: nat)
    requires k <= MaxAttempts
    ensures var r := ResolveFrom(attempts, k);
      && (r.Exhausted? <==> forall j :: k <= j < MaxAttempts ==> Transient(AttemptAt(attempts, j)))
      && (r.Located? ==>
            exists j :: k <= j < MaxAttempts && AttemptAt(attempts, j).Found?
              && r.point == GeoPoint(AttemptAt(attempts, j).longitude, AttemptAt(attempts, j).latitude)
              && forall i :: k <= i < j ==> Transient(AttemptAt(attempts, i)))
      && (r.Raised? ==>
            exists j :: k <= j < MaxAttempts && AttemptAt(attempts, j).ServiceError?
              && forall i :: k <= i < j ==> Transient(AttemptAt(attempts, i)))
    decreases MaxAttempts - k
  {
    if k < MaxAttempts && Transient(AttemptAt(attempts, k)) {
      ResolveFromDecided(attempts, k + 1);
    }
  }

  /** Resolving an address whose lookups give `attempts`. */
  function Resolve(attempts: seq<Attempt>): (r: Resolution)
  {
    ResolveFrom(attempts, 0)
  }

  /** A located address stores the point of the first lookup that found it:
      read back, it gives that lookup's longitude and latitude, in that order. */
  lemma LocatedPointDecodes(attempts: seq<Attempt>)
    ensures Resolve(attempts).Located? ==>
              exists j :: 0 <= j < MaxAttempts && AttemptAt(attempts, j).Found?
                && PointCoordinates(Resolve(attempts).point)
                     == Some((AttemptAt(attempts, j).longitude, AttemptAt(attempts, j).latitude))
  {
    ResolveFromDecided(attempts, 0);
    if Resolve(attempts).Located? {
      var j :| 0 <= j < MaxAttempts && AttemptAt(attempts, j).Found?
                && Resolve(attempts).point == GeoPoint(AttemptAt(attempts, j).longitude, AttemptAt(attempts, j).latitude);
      GeoPointRoundTrip(Resolve(attempts).point, AttemptAt(attempts, j).longitude, AttemptAt(attempts, j).latitude);
    }
  }

  /** The retry loop itself. `lookups` counts the calls made to the service. */
  method GetLocationPoint(attempts: seq<Attempt>) returns (r: Resolution, lookups: nat)
    ensures r == Resolve(attempts)
    ensures 1 <= lookups <= MaxAttempts
    ensures forall j :: 0 <= j < lookups - 1 ==> Transient(AttemptAt(attempts, j))
    ensures r.Exhausted? <==> Transient(AttemptAt(attempts, lookups - 1))
    ensures r.Located? ==> AttemptAt(attempts, lookups - 1).Found? && r.point == GeoPoint(AttemptAt(attempts, lookups - 1).longitude,
                                               AttemptAt(attempts, lookups - 1).latitude)
    ensures !r.Exhausted? <==> lookups < MaxAttempts || !Transient(AttemptAt(attempts, MaxAttempts - 1))
  {
    var retries := 0;
    while retries < MaxAttempts
      invariant 0 <= retries <= MaxAttempts
      invariant forall j :: 0 <= j < retries ==> Transient(AttemptAt(attempts, j))
      invariant ResolveFrom(attempts, retries) == Resolve(attempts)
    {
      retries := retries + 1;
      match AttemptAt(attempts, retries - 1)
      case Found(lon, lat) =>
        return Located(GeoPoint(lon, lat)), retries;
      case ServiceError =>
        return Raised, retries;
      case _ =>
    }
    return Exhausted, MaxAttempts;
  }

  /** At most five lookups are made: outcomes after the fifth are never consulted. */
  lemma {:induction false} OnlyFirstFiveConsulted(attempts: seq<Attempt>, later: seq<Attempt>, k: nat)
    requires |attempts| >= MaxAttempts
    requires k <= MaxAttempts
    ensures ResolveFrom(attempts + later, k) == ResolveFrom(attempts, k)
    decreases MaxAttempts - k
  {
    if k < MaxAttempts {
      assert AttemptAt(attempts + later, k) == AttemptAt(attempts, k);
      OnlyFirstFiveConsulted(attempts, later, k + 1);
    }
  }
}

=== FILE: names.dfy ===
/** Attribute-name manipulation: the "_coordinates" suffix of the location
    field and the lower-casing applied when validating keys. */
module Names {

  /** Appended to the location index name to form the location field. */
  const CoordinatesSuffix: string := "_coordinates"

  predicate StartsWith(s: string, prefix: string)
  {
    |prefix| <= |s| && s[..|prefix|] == prefix
  }

  /** `pattern` occurs somewhere in `s`. */
  predicate Occurs(s: string, pattern: string)
    decreases |s|
  {
    StartsWith(s, pattern) || (|s| > 0 && Occurs(s[1..], pattern))
  }

  /** `s.replace("_coordinates", "")`: every non-overlapping occurrence of the
      suffix, scanning left to right, is removed. */
  function StripCoordinates(s: string): (r: string)
    ensures |r| <= |s|
    ensures Occurs(s, CoordinatesSuffix) ==> |r| < |s|
    ensures !Occurs(s, CoordinatesSuffix) ==> r == s
    decreases |s|
  {
    if StartsWith(s, CoordinatesSuffix) then StripCoordinates(s[|CoordinatesSuffix|..])
    else if s == [] then []
    else [s[0]] + StripCoordinates(s[1..])
  }

  /** No window of `src + CoordinatesSuffix` that starts inside `src` spells the
      suffix, because '_' appears in the suffix only at its first position. */
  lemma NoStraddlingSuffix(src: string)
    requires !Occurs(src, CoordinatesSuffix)
    requires src != []
    ensures !StartsWith(src + CoordinatesSuffix, CoordinatesSuffix)
  {
    var x := src + CoordinatesSuffix;
    var n := |CoordinatesSuffix|;
    if |src| >= n {
      assert x[..n] == src[..n];
    } else {
      var k := |src|;
      assert x[k] == '_';
      assert CoordinatesSuffix[k] != '_';
      assert x[..n][k] != CoordinatesSuffix[k];
    }
  }

  /** Appending the suffix and then stripping it recovers the location index
      name, provided that name does not itself contain the suffix. */
  lemma {:induction false} StripAfterAppend(src: string)
    requires !Occurs(src, CoordinatesSuffix)
    ensures StripCoordinates(src + CoordinatesSuffix) == src
    decreases |src|
  {
    if src == [] {
      SuffixAloneStripped();
    } else {
      var x := src + CoordinatesSuffix;
      NoStraddlingSuffix(src);
      StripKeepsFirst(x);
      assert x[1..] == src[1..] + CoordinatesSuffix;
      StripAfterAppend(src[1..]);
      assert [src[0]] + src[1..] == src;
    }
  }

  /** Stripping keeps a first character that does not begin the suffix. */
  lemma StripKeepsFirst(x: string)
    requires x != [] && !StartsWith(x, CoordinatesSuffix)
    ensures StripCoordinates(x) == [x[0]] + StripCoordinates(x[1..])
  {
  }

  /** The suffix on its own strips to nothing. */
  lemma SuffixAloneStripped()
    ensures StripCoordinates(CoordinatesSuffix) == []
  {
    var s := CoordinatesSuffix;
    assert StartsWith(s, CoordinatesSuffix);
    assert s[|CoordinatesSuffix|..] == [];
  }

  /** A name ending with the suffix is changed by stripping. */
  lemma {:induction false} SuffixedNameIsStripped(src: string)
    ensures Occurs(src + CoordinatesSuffix, CoordinatesSuffix)
    ensures StripCoordinates(src + CoordinatesSuffix) != src + CoordinatesSuffix
    decreases |src|
  {
    var x := src + CoordinatesSuffix;
    if src == [] {
      assert StartsWith(x, CoordinatesSuffix);
    } else {
      SuffixedNameIsStripped(src[1..]);
      assert x[1..] == src[1..] + CoordinatesSuffix;
    }
  }

  function LowerChar(c: char): (r: char)
  {
    if 'A' <= c <= 'Z' then (c as int + 32) as char else c
  }

  /** `s.lower()` restricted to ASCII letters. */
  function Lower(s: string): (r: string)
  {
    seq(|s|, i requires 0 <= i < |s| => LowerChar(s[i]))
  }
}

=== FILE: persistence.dfy ===
/** Persistence of an entity: `Model.save`, `Model.delete` and `Model.find`,
    against an in-memory collection. The collection is the sequence of its
    documents in natural order; every document carries its `_id`. */
module Persistence {
  import opened Results
  import opened Values
  import opened Geocoding
  import opened Registry
  import opened Entity

  type Doc = Bag
  type Store = seq<Doc>

  /** Every document has an `_id`, as the document store guarantees. */
  predicate HasIds(store: Store)
  {
    forall i :: 0 <= i < |store| ==> IdKey in store[i]
  }

  /** Identifiers are present, truthy and pairwise distinct. */
  predicate WellFormedStore(store: Store)
  {
    && HasIds(store)
    && (forall i :: 0 <= i < |store| ==> Truthy(store[i][IdKey]))
    && (forall i, j :: 0 <= i < j < |store| ==> store[i][IdKey] != store[j][IdKey])
  }

  /** The filter `save` and `delete` pass to the driver. */
  datatype Query = ById(id: Value) | ByName(name: Value)

  /** Equality matching; `{"name": None}` also matches documents without a name. */
  predicate Matches(doc: Doc, q: Query)
  {
    match q
    case ById(id) => IdKey in doc && doc[IdKey] == id
    case ByName(n) =>
      if n == Null then "name" !in doc || doc["name"] == Null
      else "name" in doc && doc["name"] == n
  }

  /** The position of the first document from `k` on that matches `q`. */
  function FirstMatchFrom(store: Store, q: Query, k: nat): (r: Option<nat>)
    requires k <= |store|
    ensures r.Some? ==>
      && k <= r.value < |store|
      && Matches(store[r.value], q)
      && forall j :: k <= j < r.value ==> !Matches(store[j], q)
    ensures r.None? ==> forall j :: k <= j < |store| ==> !Matches(store[j], q)
    decreases |store| - k
  {
    if k == |store| then None
    else if Matches(store[k], q) then Some(k)
    else FirstMatchFrom(store, q, k + 1)
  }

  /** The document `update_one`, `find_one` and `delete_one` act on. */
  function FirstMatch(store: Store, q: Query): (r: Option<nat>)
  {
    FirstMatchFrom(store, q, 0)
  }

  /** The match key of `save`: `_id` when present and truthy, else `name`
      (None when the bag has no name). */
  function SaveQuery(bag: Bag): (q: Query)
    ensures q.ById? <==> IdKey in bag && Truthy(bag[IdKey])
    ensures q.ById? ==> q.id == bag[IdKey]
    ensures q.ByName? && "name" in bag ==> q.name == bag["name"]
    // the query selects the entity's own data, with or without a name
    ensures Matches(bag, q)
  {
    if IdKey in bag && Truthy(bag[IdKey]) then ById(bag[IdKey])
    else ByName(if "name" in bag then bag["name"] else Null)
  }

  /** The largest ObjectId in use. */
  function MaxObjectId(store: Store): (r: nat)
    ensures forall i :: 0 <= i < |store| && IdKey in store[i] && store[i][IdKey].ObjectId? ==>
              store[i][IdKey].id <= r
  {
    if store == [] then 0
    else
      var rest := MaxObjectId(store[1..]);
      assert forall i :: 1 <= i < |store| ==> store[i] == store[1..][i - 1];
      if IdKey in store[0] && store[0][IdKey].ObjectId? && store[0][IdKey].id > rest
      then store[0][IdKey].id else rest
  }

  /** The ObjectId the store assigns to an upserted document: one not in use. */
  function FreshId(store: Store): (r: Value)
    ensures r.ObjectId? && Truthy(r)
    ensures forall i :: 0 <= i < |store| && IdKey in store[i] ==> store[i][IdKey] != r
  {
    ObjectId(MaxObjectId(store) + 1)
  }

  /** The document an upsert creates when nothing matches: the query's equality
      fields, a fresh `_id` if the query has none, then the `$set` fields. */
  function UpsertedDoc(store: Store, q: Query, payload: Bag): (r: Doc)
    ensures IdKey in r && (IdKey !in payload ==> r[IdKey] == (if q.ById? then q.id else FreshId(store)))
    ensures forall k :: k in payload ==> k in r && r[k] == payload[k]
    ensures forall k :: k in r ==> k in payload || k == IdKey || (k == "name" && q.ByName? && r[k] == q.name)
    // the query's `name`, even None, becomes a field of the new document
    ensures q.ByName? && "name" !in payload ==> "name" in r && r["name"] == q.name
  {
    match q
    case ById(id) => map[IdKey := id] + payload
    case ByName(n) => map[IdKey := FreshId(store), "name" := n] + payload
  }

  /** The geocoding step of `save`: when a location field is configured and its
      source is in the bag, a resolved point overwrites the location field; a
      failure leaves the bag as it was. */
  function GeocodeOnSave(reg: Registration, bag: Bag, geocoder: Geocoder): (r: Bag)
    ensures bag.Keys <= r.Keys
    ensures forall k :: k in r && ActiveLocationVar(reg) != Some(k) ==> k in bag && r[k] == bag[k]
    ensures LocationSource(reg).Some? && LocationSource(reg).value in bag ==>
              var res := Resolve(geocoder(bag[LocationSource(reg).value]));
              && (res.Located? ==> reg.locationVar.value in r && r[reg.locationVar.value] == res.point)
              && (!res.Located? ==> r == bag)
    ensures LocationSource(reg).None? || LocationSource(reg).value !in bag ==> r == bag
  {
    if LocationSource(reg).Some? && LocationSource(reg).value in bag then Geocoded(reg, bag, geocoder)
    else bag
  }

  /** A `$set` of fields with no `_id` onto the first document matching the
      save query leaves it the first match. */
  lemma {:induction false} FirstMatchAfterSet(store: Store, q: Query, payload: Bag, i: nat)
    requires FirstMatch(store, q) == Some(i)
    requires IdKey !in payload
    requires q.ByName? && "name" in payload ==> payload["name"] == q.name
    ensures FirstMatch(store[i := store[i] + payload], q) == Some(i)
  {
    var s := store[i := store[i] + payload];
    assert Matches(s[i], q);
    assert forall j :: 0 <= j < i ==> s[j] == store[j];
    FirstMatchIs(s, q, i);
  }

  /** The first match is at `i` when `i` matches and nothing before it does. */
  lemma {:induction false} FirstMatchIs(store: Store, q: Query, i: nat)
    requires i < |store| && Matches(store[i], q)
    requires forall j :: 0 <= j < i ==> !Matches(store[j], q)
    ensures FirstMatch(store, q) == Some(i)
  {
  }

  /** The result of `update_one(q, {"$set": payload}, upsert=True)`: the
      collection afterwards, the position written, and whether it was an insert. */
  datatype Written = Written(store: Store, index: nat, inserted: bool)

  function Upsert(store: Store, q: Query, payload: Bag): (r: Written)
    requires HasIds(store) && IdKey !in payload
    ensures r.index < |r.store| && HasIds(r.store)
    ensures forall k :: k in payload ==> k in r.store[r.index] && r.store[r.index][k] == payload[k]
    ensures r.inserted <==> forall j :: 0 <= j < |store| ==> !Matches(store[j], q)
    ensures r.inserted ==> r.index == |store| && r.store == store + [UpsertedDoc(store, q, payload)]
    ensures !r.inserted ==>
              && FirstMatch(store, q) == Some(r.index)
              && r.store == store[r.index := store[r.index] + payload]
  {
    match FirstMatch(store, q)
    case None =>
      var s := store + [UpsertedDoc(store, q, payload)];
      assert forall j :: 0 <= j < |store| ==> s[j] == store[j];
      Written(s, |store|, true)
    case Some(i) =>
      Written(store[i := store[i] + payload], i, false)
  }

  /** The outcome of `save`: the bag afterwards, the collection afterwards, the
      position of the written document, and whether it was inserted. */
  datatype Saved = Saved(bag: Bag, store: Store, index: nat, inserted: bool)

  /** The persisting part of `save`, after geocoding:
      `update_one(query, {"$set": bag - _id}, upsert=True)`, then capture the
      `_id` of the written document. */
  function Persist(bag: Bag, store: Store): (r: Saved)
    requires HasIds(store)
    // the bag keeps its fields and gains the identifier of the written document
    ensures r.bag.Keys == bag.Keys + {IdKey}
    ensures forall k :: k in bag && k != IdKey ==> r.bag[k] == bag[k]
    ensures r.bag == bag[IdKey := r.bag[IdKey]]
    ensures r.index < |r.store| && HasIds(r.store)
    ensures r.store[r.index][IdKey] == r.bag[IdKey]
    // the written document holds every field of the bag
    ensures forall k :: k in r.bag ==> k in r.store[r.index] && r.store[r.index][k] == r.bag[k]
    // an insert happens exactly when no document matches the save query
    ensures r.inserted <==> forall j :: 0 <= j < |store| ==> !Matches(store[j], SaveQuery(bag))
    // an inserted document is the bag, plus a null name when the bag has none
    ensures r.inserted ==>
              && r.store == store + [r.store[r.index]]
              && r.store[r.index] == UpsertedDoc(store, SaveQuery(bag), bag - {IdKey})
              && forall k :: k in r.store[r.index] ==> k in r.bag || (k == "name" && r.store[r.index][k] == Null)
    // an update is `$set`: it changes only the matched document, and in it only the bag's fields
    ensures !r.inserted ==>
              && |r.store| == |store|
              && (forall j :: 0 <= j < |store| && j != r.index ==> r.store[j] == store[j])
              && r.store[r.index].Keys == store[r.index].Keys + (r.bag.Keys - {IdKey})
              && forall k :: k in store[r.index] && k !in r.bag ==> r.store[r.index][k] == store[r.index][k]
    // the updated document is the first match of the save query; it keeps its
    // `_id`, which the bag captures, and takes every other field of the bag
    ensures !r.inserted ==>
              && FirstMatch(store, SaveQuery(bag)) == Some(r.index)
              && r.bag[IdKey] == store[r.index][IdKey]
              && r.store[r.index] == store[r.index] + (bag - {IdKey})
  {
    var payload := bag - {IdKey};
    var q := SaveQuery(bag);
    var w := Upsert(store, q, payload);
    if w.inserted then
      // `result.upserted_id` is the new document's `_id`
      Saved(bag[IdKey := w.store[w.index][IdKey]], w.store, w.index, true)
    else
      // `find_one(query)` finds the document just updated
      FirstMatchAfterSet(store, q, payload, w.index);
      match FirstMatch(w.store, q)
      case Some(j) => Saved(bag[IdKey := w.store[j][IdKey]], w.store, w.index, false)
      case None => Saved(bag, w.store, w.index, false)
  }

  /** `Model.save`: geocode the address source, then persist. */
  function Save(reg: Registration, bag: Bag, store: Store, geocoder: Geocoder): (r: Saved)
    requires HasIds(store)
    ensures r.index < |r.store| && HasIds(r.store) && IdKey in r.bag && r.store[r.index][IdKey] == r.bag[IdKey]
    // the entity afterwards is its geocoded bag with the captured `_id`
    ensures r.bag == GeocodeOnSave(reg, bag, geocoder)[IdKey := r.bag[IdKey]]
    // an update writes the first document matching the entity's save query,
    // keeps that document's `_id` and sets every other field of the entity
    ensures !r.inserted ==>
              && FirstMatch(store, SaveQuery(GeocodeOnSave(reg, bag, geocoder))) == Some(r.index)
              && r.bag[IdKey] == store[r.index][IdKey]
              && r.store[r.index] == store[r.index] + (r.bag - {IdKey})
    // the geocoded field can change the query only when it is `_id` or `name`
    ensures !r.inserted && ActiveLocationVar(reg) != Some(IdKey) && ActiveLocationVar(reg) != Some("name") ==>
              FirstMatch(store, SaveQuery(bag)) == Some(r.index)
    // it inserts exactly when no document matches that query; an insert
    // appends one document and an update rewrites only the matched one
    ensures r.inserted <==>
              forall j :: 0 <= j < |store| ==> !Matches(store[j], SaveQuery(GeocodeOnSave(reg, bag, geocoder)))
    ensures r.inserted ==> r.store == store + [r.store[r.index]]
    // an insert appends the upserted document of the geocoded entity: the query's
    // equality fields (its `_id`, or `name` with a fresh `_id`) and the `$set` fields
    ensures r.inserted ==>
              && r.index == |store|
              && r.store[r.index] == UpsertedDoc(store, SaveQuery(GeocodeOnSave(reg, bag, geocoder)),
                                                 GeocodeOnSave(reg, bag, geocoder) - {IdKey})
    ensures !r.inserted ==>
              |r.store| == |store| && forall j :: 0 <= j < |store| && j != r.index ==> r.store[j] == store[j]
    // every field other than the location field is written as the bag holds it
    ensures forall k :: k in bag && k != IdKey && ActiveLocationVar(reg) != Some(k) ==>
              k in r.store[r.index] && r.store[r.index][k] == bag[k]
    // without a configured source present in the bag, nothing is geocoded
    ensures LocationSource(reg).None? || LocationSource(reg).value !in bag ==> r == Persist(bag, store)
    // with one, a resolved point is written under the location field; on a
    // failure the previous value is kept and a new document gets no location
    ensures LocationSource(reg).Some? && LocationSource(reg).value in bag && reg.locationVar.value != IdKey ==>
              var lv := reg.locationVar.value;
              var res := Resolve(geocoder(bag[LocationSource(reg).value]));
              && (res.Located? ==> lv in r.store[r.index] && r.store[r.index][lv] == res.point)
              && (!res.Located? && lv in bag ==> lv in r.store[r.index] && r.store[r.index][lv] == bag[lv])
              && (!res.Located? && lv !in bag && lv != "name" && r.inserted ==> lv !in r.store[r.index])
  {
    var b := GeocodeOnSave(reg, bag, geocoder);
    GeocodingKeepsQuery(reg, bag, geocoder);
    var r := Persist(b, store);
    IdIgnoredBySet(b, r.bag[IdKey]);
    r
  }

  /** Geocoding on save changes the save query only through a location field
      named `_id` or `name`. */
  lemma GeocodingKeepsQuery(reg: Registration, bag: Bag, geocoder: Geocoder)
    ensures ActiveLocationVar(reg) != Some(IdKey) && ActiveLocationVar(reg) != Some("name") ==>
              SaveQuery(GeocodeOnSave(reg, bag, geocoder)) == SaveQuery(bag)
  {
  }

  /** The `$set` payload of a bag does not depend on its `_id`. */
  lemma IdIgnoredBySet(bag: Bag, id: Value)
    ensures bag[IdKey := id] - {IdKey} == bag - {IdKey}
  {
  }

  /** The outcome of a `delete` that got past its check. */
  datatype Deleted = Deleted(bag: Bag, store: Store, deleted: bool)

  /** `Model.delete`: needs a truthy `_id`; removes the first document with that
      id and clears the bag's `_id` to None, or reports that nothing was removed. */
  function Delete(bag: Bag, store: Store): (r: Result<Deleted>)
    ensures r.Err? <==> !(IdKey in bag && Truthy(bag[IdKey]))
    ensures r.Err? ==> r.error == NotPersisted
    ensures r.Ok? ==>
              (r.value.deleted <==> exists j :: 0 <= j < |store| && Matches(store[j], ById(bag[IdKey])))
    ensures r.Ok? && r.value.deleted ==>
              && r.value.bag == bag[IdKey := Null]
              && exists j :: 0 <= j < |store| && FirstMatch(store, ById(bag[IdKey])) == Some(j)
                   && r.value.store == store[..j] + store[j + 1..]
    ensures r.Ok? && !r.value.deleted ==> r.value.bag == bag && r.value.store == store
    // no field other than `_id` changes
    ensures r.Ok? ==> forall k :: k != IdKey ==>
              (k in r.value.bag <==> k in bag) && (k in bag ==> r.value.bag[k] == bag[k])
  {
    if !(IdKey in bag && Truthy(bag[IdKey])) then Err(NotPersisted)
    else
      match FirstMatch(store, ById(bag[IdKey]))
      case Some(j) => Ok(Deleted(bag[IdKey := Null], store[..j] + store[j + 1..], true))
      case None => Ok(Deleted(bag, store, false))
  }

  /** `Model.find(filter)`: the documents the filter selects, in natural order
      (`FindKeepsOrder`). */
  function Find(store: Store, filter: Doc -> bool): (r: seq<Doc>)
    ensures |r| <= |store|
    ensures forall d :: d in r ==> d in store && filter(d)
    ensures forall d :: d in store && filter(d) ==> d in r
    ensures r == [] <==> forall d :: d in store ==> !filter(d)
  {
    if store == [] then []
    else
      assert forall d :: d in store ==> d == store[0] || d in store[1..];
      (if filter(store[0]) then [store[0]] else []) + Find(store[1..], filter)
  }

  /** The filter `{"_id": id}`. */
  function IdFilter(id: Value): (f: Doc -> bool)
  {
    d => IdKey in d && d[IdKey] == id
  }

  /** `find` keeps the collection's natural order: the documents selected from
      one part of the collection come before those selected from a later part. */
  lemma {:induction false} FindKeepsOrder(front: Store, back: Store, filter: Doc -> bool)
    ensures Find(front + back, filter) == Find(front, filter) + Find(back, filter)
    decreases |front|
  {
    if front != [] {
      var first, rest := front[0], front[1..];
      ConsSplit(front);
      ConcatAssociative([first], rest, back);
      FindCons(first, rest, filter);
      FindCons(first, rest + back, filter);
      FindKeepsOrder(rest, back, filter);
      ConcatAssociative(if filter(first) then [first] else [], Find(rest, filter), Find(back, filter));
    } else {
      assert front + back == back;
    }
  }

  /** Regrouping a concatenation of three document sequences. */
  lemma ConcatAssociative(a: seq<Doc>, b: seq<Doc>, c: seq<Doc>)
    ensures a + (b + c) == (a + b) + c
  {
  }

  /** A non-empty sequence is its first document followed by the rest. */
  lemma ConsSplit(front: seq<Doc>)
    requires front != []
    ensures front == [front[0]] + front[1..]
  {
  }

  /** One step of `find`: the first document, if selected, then the rest. */
  lemma FindCons(first: Doc, rest: Store, filter: Doc -> bool)
    ensures Find([first] + rest, filter) == (if filter(first) then [first] else []) + Find(rest, filter)
  {
    assert ([first] + rest)[1..] == rest;
  }

  /** `save` keeps identifiers present, truthy and unique, and leaves the bag
      with a truthy `_id`. */
  lemma SaveKeepsStoreWellFormed(reg: Registration, bag: Bag, store: Store, geocoder: Geocoder)
    requires WellFormedStore(store)
    ensures WellFormedStore(Save(reg, bag, store, geocoder).store)
    ensures Truthy(Save(reg, bag, store, geocoder).bag[IdKey])
  {
    var b := GeocodeOnSave(reg, bag, geocoder);
    UpsertKeepsWellFormed(store, SaveQuery(b), b - {IdKey});
  }

  /** An upsert whose query id, if any, is truthy keeps identifiers present,
      truthy and unique. */
  lemma UpsertKeepsWellFormed(store: Store, q: Query, payload: Bag)
    requires WellFormedStore(store) && IdKey !in payload
    requires q.ById? ==> Truthy(q.id)
    ensures WellFormedStore(Upsert(store, q, payload).store)
  {
    var w := Upsert(store, q, payload);
    if w.inserted {
      var doc := UpsertedDoc(store, q, payload);
      assert forall j :: 0 <= j < |store| ==> store[j][IdKey] != doc[IdKey] by {
        forall j | 0 <= j < |store|
          ensures store[j][IdKey] != doc[IdKey]
        {
          if q.ById? {
            assert !Matches(store[j], q);
          }
        }
      }
      assert forall j :: 0 <= j < |store| ==> w.store[j] == store[j];
    } else {
      assert forall j :: 0 <= j < |store| ==> w.store[j][IdKey] == store[j][IdKey];
    }
  }

  /** A second `save` of the saved entity updates the same document: the
      collection keeps its size and the entity keeps its `_id`. */
  lemma SaveTwiceKeepsOneDocument(reg: Registration, bag: Bag, store: Store, geocoder: Geocoder)
    requires WellFormedStore(store)
    requires ActiveLocationVar(reg) != Some(IdKey)
    ensures var r1 := Save(reg, bag, store, geocoder);
            var r2 := Save(reg, r1.bag, r1.store, geocoder);
            && !r2.inserted
            && r2.index == r1.index
            && |r2.store| == |r1.store|
            && r2.bag[IdKey] == r1.bag[IdKey]
  {
    var r1 := Save(reg, bag, store, geocoder);
    SaveKeepsStoreWellFormed(reg, bag, store, geocoder);
    var b2 := GeocodeOnSave(reg, r1.bag, geocoder);
    assert b2[IdKey] == r1.bag[IdKey];
    var q := SaveQuery(b2);
    assert q == ById(r1.bag[IdKey]);
    FirstMatchIsUniqueId(r1.store, r1.index);
    var w := Upsert(r1.store, q, b2 - {IdKey});
    assert !w.inserted && w.index == r1.index;
    assert w.store[w.index][IdKey] == r1.bag[IdKey];
    var r2 := Save(reg, r1.bag, r1.store, geocoder);
    assert r2.store == w.store && r2.index == w.index && !r2.inserted;
  }

  /** In a collection with unique ids, the first document with a given id is the
      only one. */
  lemma FirstMatchIsUniqueId(store: Store, i: nat)
    requires WellFormedStore(store) && i < |store|
    ensures FirstMatch(store, ById(store[i][IdKey])) == Some(i)
  {
    FirstMatchIs(store, ById(store[i][IdKey]), i);
  }

  /** `find({"_id": id})` on a collection with unique ids returns exactly the
      document with that id. */
  lemma {:induction false} FindById(store: Store, i: nat)
    requires WellFormedStore(store) && i < |store|
    ensures Find(store, IdFilter(store[i][IdKey])) == [store[i]]
    decreases |store|
  {
    var id := store[i][IdKey];
    var rest := store[1..];
    assert WellFormedStore(rest) by {
      assert forall j :: 0 <= j < |rest| ==> rest[j] == store[j + 1];
    }
    if i == 0 {
      assert forall d :: d in rest ==> !IdFilter(id)(d) by {
        forall d | d in rest
          ensures !IdFilter(id)(d)
        {
          var j :| 0 <= j < |rest| && rest[j] == d;
          assert d == store[j + 1];
        }
      }
    } else {
      assert rest[i - 1] == store[i];
      FindById(rest, i - 1);
    }
  }

  /** After a `save`, finding by the entity's `_id` returns one document, and it
      holds every field of the entity. */
  lemma SaveThenFind(reg: Registration, bag: Bag, store: Store, geocoder: Geocoder)
    requires WellFormedStore(store)
    ensures var r := Save(reg, bag, store, geocoder);
            var found := Find(r.store, IdFilter(r.bag[IdKey]));
            && |found| == 1
            && forall k :: k in r.bag ==> k in found[0] && found[0][k] == r.bag[k]
  {
    var r := Save(reg, bag, store, geocoder);
    SaveKeepsStoreWellFormed(reg, bag, store, geocoder);
    FindById(r.store, r.index);
  }

  /** Removing one document keeps identifiers well formed and drops its id. */
  lemma RemovalKeepsWellFormed(store: Store, j: nat)
    requires WellFormedStore(store) && j < |store|
    ensures WellFormedStore(store[..j] + store[j + 1..])
    ensures forall d :: d in store[..j] + store[j + 1..] ==> d[IdKey] != store[j][IdKey]
  {
    var s := store[..j] + store[j + 1..];
    assert forall k :: 0 <= k < |s| ==> s[k] == store[if k < j then k else k + 1];
  }

  /** `delete` keeps identifiers well formed, and a successful delete leaves no
      document with the entity's old id. */
  lemma DeleteKeepsStoreWellFormed(bag: Bag, store: Store)
    requires WellFormedStore(store)
    requires Delete(bag, store).Ok?
    ensures WellFormedStore(Delete(bag, store).value.store)
    ensures Delete(bag, store).value.deleted ==>
              forall j :: 0 <= j < |Delete(bag, store).value.store| ==>
                Delete(bag, store).value.store[j][IdKey] != bag[IdKey]
  {
    var r := Delete(bag, store).value;
    if r.deleted {
      var j :| 0 <= j < |store| && Matches(store[j], ById(bag[IdKey]))
                 && r.store == store[..j] + store[j + 1..];
      RemovalKeepsWellFormed(store, j);
    }
  }

  /** A delete that removed the document cannot be repeated: the second one
      fails with NotPersisted. */
  lemma DeleteTwiceFails(bag: Bag, store: Store)
    requires Delete(bag, store).Ok? && Delete(bag, store).value.deleted
    ensures var r := Delete(bag, store).value;
            Delete(r.bag, r.store) == Err(NotPersisted)
  {
  }

  /** Deleting a saved entity removes its document: the collection shrinks by
      one and finding by the old `_id` returns nothing. */
  lemma SaveThenDelete(reg: Registration, bag: Bag, store: Store, geocoder: Geocoder)
    requires WellFormedStore(store)
    ensures var r := Save(reg, bag, store, geocoder);
            var d := Delete(r.bag, r.store);
            && d.Ok? && d.value.deleted
            && |d.value.store| == |r.store| - 1
            && Find(d.value.store, IdFilter(r.bag[IdKey])) == []
            && IdKey in d.value.bag && !Truthy(d.value.bag[IdKey])
  {
    var r := Save(reg, bag, store, geocoder);
    SaveKeepsStoreWellFormed(reg, bag, store, geocoder);
    assert Matches(r.store[r.index], ById(r.bag[IdKey]));
    var d := Delete(r.bag, r.store);
    DeleteKeepsStoreWellFormed(r.bag, r.store);
  }
}

=== FILE: readback.dfy ===
/** Reading a saved entity back: `save`, then `find({"_id": ...})`, then the
    cursor. The stored document is rebuilt with the entity class's own
    constructor, so the round trip holds only when that document is a valid
    entity of the class. */
module ReadBack {
  import opened Results
  import opened Values
  import opened Names
  import opened Geocoding
  import opened Registry
  import opened Entity
  import opened Persistence
  import opened Cursor

  /** Finding by the saved entity's `_id` selects exactly its document. */
  lemma SavedDocumentFound(reg: Registration, bag: Bag, store: Store, geocoder: Geocoder)
    requires WellFormedStore(store)
    ensures var r := Save(reg, bag, store, geocoder);
            Find(r.store, IdFilter(r.bag[IdKey])) == [r.store[r.index]]
  {
    var r := Save(reg, bag, store, geocoder);
    SaveKeepsStoreWellFormed(reg, bag, store, geocoder);
    FindById(r.store, r.index);
  }

  /** After `save`, finding by `_id` reads the entity back, with every field
      it had, whenever the stored document is a valid entity of the class:
      it has no `self` key, holds every required name and only admitted keys. */
  lemma SavedEntityReadBack(reg: Registration, bag: Bag, store: Store, geocoder: Geocoder)
    requires WellFormedStore(store)
    requires var r := Save(reg, bag, store, geocoder);
             && SelfParameter !in r.store[r.index]
             && reg.required <= r.store[r.index].Keys
             && forall k :: k in r.store[r.index] ==> Admitted(reg, k)
    ensures var r := Save(reg, bag, store, geocoder);
            var found := FindModels(reg, r.store, IdFilter(r.bag[IdKey]), geocoder);
            && |found| == 1
            && forall k :: k in r.bag ==> k in found[0] && found[0][k] == r.bag[k]
  {
    var r := Save(reg, bag, store, geocoder);
    var doc := r.store[r.index];
    SavedDocumentFound(reg, bag, store, geocoder);
    ConstructionIndependentOfGeocoder(reg, doc, geocoder, geocoder);
    var built := Construct(reg, doc, geocoder);
    assert built.Ok?;
    assert ModelClass(reg, geocoder)(doc) == built;
    var found := Materialize(ModelClass(reg, geocoder), [doc]);
    assert |found| == 1;
    assert found[0] == built.value;
  }

  /** A newly inserted entity whose keys are all admitted, that holds every
      required name and that has a `name`, is read back with every field
      (provided neither it nor the location field is named `self`). */
  lemma InsertedEntityReadBack(reg: Registration, bag: Bag, store: Store, geocoder: Geocoder)
    requires WellFormedStore(store)
    requires reg.required <= bag.Keys && "name" in bag
    requires SelfParameter !in bag && ActiveLocationVar(reg) != Some(SelfParameter)
    requires forall k :: k in bag ==> Admitted(reg, k)
    ensures var r := Save(reg, bag, store, geocoder);
            var found := FindModels(reg, r.store, IdFilter(r.bag[IdKey]), geocoder);
            r.inserted ==>
              && |found| == 1
              && forall k :: k in r.bag ==> k in found[0] && found[0][k] == r.bag[k]
  {
    var r := Save(reg, bag, store, geocoder);
    if r.inserted {
      var b := GeocodeOnSave(reg, bag, geocoder);
      assert r == Persist(b, store);
      var doc := r.store[r.index];
      assert forall k :: k in b ==> Admitted(reg, k);
      assert forall k :: k in doc ==> k in r.bag;
      SavedEntityReadBack(reg, bag, store, geocoder);
    }
  }

  /** A saved document holding a key the class does not admit is never read
      back: the cursor stops at it. */
  lemma InvalidDocumentNotReadBack(reg: Registration, bag: Bag, store: Store, geocoder: Geocoder, key: string)
    requires WellFormedStore(store)
    requires var r := Save(reg, bag, store, geocoder);
             key in r.store[r.index] && !Admitted(reg, key)
    ensures var r := Save(reg, bag, store, geocoder);
            FindModels(reg, r.store, IdFilter(r.bag[IdKey]), geocoder) == []
  {
    var r := Save(reg, bag, store, geocoder);
    var doc := r.store[r.index];
    SavedDocumentFound(reg, bag, store, geocoder);
    ConstructionIndependentOfGeocoder(reg, doc, geocoder, geocoder);
    assert ModelClass(reg, geocoder)(doc).Err?;
  }

  /** `save` of an entity with neither `_id` nor `name` upserts on
      `{"name": None}`; when nothing matches, the new document gets
      `name: null`. A class that does not admit `name` rejects that document,
      so the entity cannot be read back by its `_id`. */
  lemma NamelessEntityNotReadBack(reg: Registration, bag: Bag, store: Store, geocoder: Geocoder)
    requires WellFormedStore(store)
    requires ActiveLocationVar(reg) != Some("name") && ActiveLocationVar(reg) != Some(IdKey)
    requires "name" !in bag && IdKey !in bag && !Admitted(reg, "name")
    requires forall j :: 0 <= j < |store| ==> !Matches(store[j], ByName(Null))
    ensures var r := Save(reg, bag, store, geocoder);
            && r.inserted
            && FindModels(reg, r.store, IdFilter(r.bag[IdKey]), geocoder) == []
  {
    var r := Save(reg, bag, store, geocoder);
    var b := GeocodeOnSave(reg, bag, geocoder);
    assert "name" !in b && IdKey !in b;
    assert SaveQuery(b) == ByName(Null);
    assert r == Persist(b, store);
    assert "name" in r.store[r.index];
    InvalidDocumentNotReadBack(reg, bag, store, geocoder, "name");
  }

  /** A class `Thing` with `sku` required and nothing else declared builds
      `Thing(sku="A1")` without a `name` and does not admit one: saving it
      into an empty collection loses it. */
  lemma NamelessThing(geocoder: Geocoder)
    ensures var reg := Registration({"sku"}, {}, None);
            var entity := Construct(reg, map["sku" := Str("A1")], geocoder);
            && entity.Ok?
            && "name" !in entity.value && IdKey !in entity.value
            && !Admitted(reg, "name")
  {
    var reg := Registration({"sku"}, {}, None);
    assert Lower("sku") == "sku";
    assert Lower("name") == "name";
    var entity := Construct(reg, map["sku" := Str("A1")], geocoder);
    assert entity.Ok?;
    assert entity.value.Keys == {"sku"};
  }

  /** The counterexample itself: `Thing(sku="A1")` constructs and saves, but
      finding it by its `_id` yields nothing. */
  lemma ThingNotReadBack(geocoder: Geocoder)
    ensures var reg := Registration({"sku"}, {}, None);
            var entity := Construct(reg, map["sku" := Str("A1")], geocoder);
            && entity.Ok?
            && var r := Save(reg, entity.value, [], geocoder);
               FindModels(reg, r.store, IdFilter(r.bag[IdKey]), geocoder) == []
  {
    var reg := Registration({"sku"}, {}, None);
    NamelessThing(geocoder);
    var entity := Construct(reg, map["sku" := Str("A1")], geocoder);
    NamelessEntityNotReadBack(reg, entity.value, [], geocoder);
  }

  /** `__setattr__` stores the literal name "_location_var", and `save` writes
      it to the document. A class that does not admit that name at
      construction rejects the document, so the entity cannot be read back. */
  lemma StoredLocationVarNotReadBack(reg: Registration, bag: Bag, store: Store, geocoder: Geocoder, value: Value)
    requires WellFormedStore(store)
    requires ActiveLocationVar(reg) != Some(LocationVarAttr) && !Admitted(reg, LocationVarAttr)
    ensures var withVar := SetAttr(reg, bag, LocationVarAttr, value);
            && withVar.Ok? && LocationVarAttr in withVar.value
            && var r := Save(reg, withVar.value, store, geocoder);
               FindModels(reg, r.store, IdFilter(r.bag[IdKey]), geocoder) == []
  {
    var withVar := SetAttr(reg, bag, LocationVarAttr, value);
    var r := Save(reg, withVar.value, store, geocoder);
    assert LocationVarAttr in r.store[r.index];
    InvalidDocumentNotReadBack(reg, withVar.value, store, geocoder, LocationVarAttr);
  }

  /** A class with `name` required and no location field does not admit
      "_location_var" at construction. */
  lemma LocationVarRejected()
    ensures var reg := Registration({"name"}, {}, None);
            ActiveLocationVar(reg) != Some(LocationVarAttr) && !Admitted(reg, LocationVarAttr)
  {
    assert Lower(LocationVarAttr) == LocationVarAttr;
  }
}

=== FILE: registry.dfy ===
/** Class registration `Model.init_class`: binds the attribute sets and the
    location field, and lists the indexes to provision on the collection. */
module Registry {
  import opened Results
  import opened Names

  datatype IndexKind = Unique | Regular | Sphere2d

  /** One `create_index` call: an ascending index on `field` (unique or not),
      or a 2dsphere index. */
  datatype IndexRequest = IndexRequest(field: string, kind: IndexKind)

  /** The `indexes` argument of `init_class`. */
  datatype IndexSpec = IndexSpec(
    uniqueIndexes: seq<string>,
    regularIndexes: seq<string>,
    locationIndex: Option<string>)

  /** The class-level state of one registered model. */
  datatype Registration = Registration(
    required: set<string>,
    admissible: set<string>,
    locationVar: Option<string>)

  datatype Setup = Setup(registration: Registration, indexes: seq<IndexRequest>)

  /** `indexes.get("location_index")` is truthy: present and non-empty. */
  predicate HasLocationIndex(spec: IndexSpec)
  {
    spec.locationIndex.Some? && spec.locationIndex.value != ""
  }

  /** One index request of the given kind per listed field, in order. */
  function Requests(fields: seq<string>, kind: IndexKind): (r: seq<IndexRequest>)
    ensures |r| == |fields|
    ensures forall i :: 0 <= i < |fields| ==> r[i] == IndexRequest(fields[i], kind)
  {
    if fields == [] then [] else [IndexRequest(fields[0], kind)] + Requests(fields[1..], kind)
  }

  /** `Model.init_class`. */
  function InitClass(spec: IndexSpec, required: set<string>, admissible: set<string>): (r: Setup)
    ensures r.registration.required == required && r.registration.admissible == admissible
    ensures r.registration.locationVar.Some? <==> HasLocationIndex(spec)
    ensures HasLocationIndex(spec) ==>
      r.registration.locationVar.value == spec.locationIndex.value + CoordinatesSuffix
    ensures var u := |spec.uniqueIndexes|;
            var g := |spec.regularIndexes|;
            && |r.indexes| == u + g + (if HasLocationIndex(spec) then 1 else 0)
            && (forall i :: 0 <= i < u ==> r.indexes[i] == IndexRequest(spec.uniqueIndexes[i], Unique))
            && (forall i :: 0 <= i < g ==> r.indexes[u + i] == IndexRequest(spec.regularIndexes[i], Regular))
            && (HasLocationIndex(spec) ==>
                  r.indexes[u + g] == IndexRequest(r.registration.locationVar.value, Sphere2d))
  {
    var indexes := Requests(spec.uniqueIndexes, Unique) + Requests(spec.regularIndexes, Regular);
    if HasLocationIndex(spec) then
      var locationVar := spec.locationIndex.value + CoordinatesSuffix;
      Setup(Registration(required, admissible, Some(locationVar)),
            indexes + [IndexRequest(locationVar, Sphere2d)])
    else
      Setup(Registration(required, admissible, None), indexes)
  }

  /** The location field as the entity code tests it (`if self._location_var:`). */
  function ActiveLocationVar(reg: Registration): (r: Option<string>)
  {
    if reg.locationVar.Some? && reg.locationVar.value != "" then reg.locationVar else None
  }

  /** The field the location is geocoded from: the location field with
      "_coordinates" removed. */
  function LocationSource(reg: Registration): (r: Option<string>)
    ensures r.Some? <==> ActiveLocationVar(reg).Some?
    ensures r.Some? ==> |r.value| <= |reg.locationVar.value|
    // a location field that carries the suffix is never its own source, so
    // geocoding never overwrites the address it reads
    ensures r.Some? && Occurs(reg.locationVar.value, CoordinatesSuffix) ==> r.value != reg.locationVar.value
  {
    if ActiveLocationVar(reg).Some? then Some(StripCoordinates(reg.locationVar.value)) else None
  }

  /** A registration as `init_class` leaves it: a location field, when set, is a
      non-empty name whose source field differs from it. */
  predicate WellFormed(reg: Registration)
  {
    reg.locationVar.Some? ==>
      && reg.locationVar.value != ""
      && StripCoordinates(reg.locationVar.value) != reg.locationVar.value
  }

  /** Registration yields a well-formed record whose location source is the
      configured location index, whenever that name does not itself contain
      "_coordinates". */
  lemma LocationSourceRecovered(spec: IndexSpec, required: set<string>, admissible: set<string>)
    ensures WellFormed(InitClass(spec, required, admissible).registration)
    ensures var reg := InitClass(spec, required, admissible).registration;
            HasLocationIndex(spec) && !Occurs(spec.locationIndex.value, CoordinatesSuffix) ==>
              ActiveLocationVar(reg).Some? && LocationSource(reg) == spec.locationIndex
    ensures !HasLocationIndex(spec) ==>
              LocationSource(InitClass(spec, required, admissible).registration).None?
  {
    if HasLocationIndex(spec) {
      var loc := spec.locationIndex.value;
      SuffixedNameIsStripped(loc);
      if !Occurs(loc, CoordinatesSuffix) {
        StripAfterAppend(loc);
      }
    }
  }
}

=== FILE: results.dfy ===
/** Option and Result wrappers, and the errors the model engine raises. */
module Results {

  datatype Option<+T> = None | Some(value: T)

  /** The exceptions the entity engine raises, named after what they report. */
  datatype Error =
    | ArgumentClash(name: string)            // TypeError: a keyword argument named like a parameter
    | MissingRequired(missing: set<string>)  // ValueError "Missing required fields"
    | InvalidField(invalid: set<string>)     // ValueError "Invalid field for this model"
    | DataNotDict                            // TypeError "_data must be a dictionary"
    | AttributeNotFound(name: string)        // AttributeError on a read
    | NotPersisted                           // ValueError "Cannot delete: _id not set"

  datatype Result<+T> = Ok(value: T) | Err(error: Error)
}

=== FILE: values.dfy ===
/** The values an entity's data bag and a stored document hold. */
module Values {
  import opened Results

  /** A coordinate as returned by the geocoding service. It is carried
      around and stored but never computed on, so it stays opaque. */
  type Coord = int

  /** ObjectIds assigned by the document store. */
  type Id = nat

  /** A BSON/Python value: scalars, ObjectIds, arrays and nested documents. */
  datatype Value =
    | Null
    | Bool(b: bool)
    | Int(i: int)
    | Float(f: Coord)
    | Str(s: string)
    | ObjectId(id: Id)
    | Array(items: seq<Value>)
    | Object(fields: map<string, Value>)

  /** The data bag of an entity, and likewise the body of a stored document. */
  type Bag = map<string, Value>

  /** Python's truth value of a value (`bool(v)`). */
  predicate Truthy(v: Value)
  {
    match v
    case Null => false
    case Bool(b) => b
    case Int(i) => i != 0
    case Float(f) => f != 0
    case Str(s) => s != ""
    case ObjectId(_) => true
    case Array(items) => items != []
    case Object(fields) => fields != map[]
  }

  /** The GeoJSON point `{"type": "Point", "coordinates": [lon, lat]}`. */
  function GeoPoint(longitude: Coord, latitude: Coord): Value
  {
    Object(map["type" := Str("Point"), "coordinates" := Array([Float(longitude), Float(latitude)])])
  }

  /** Reads a stored GeoJSON point back as `(longitude, latitude)`: an object
      with exactly the keys "type" ("Point") and "coordinates" (two floats). */
  function PointCoordinates(v: Value): (r: Option<(Coord, Coord)>)
  {
    if && v.Object?
       && v.fields.Keys == {"type", "coordinates"}
       && v.fields["type"] == Str("Point")
       && v.fields["coordinates"].Array?
       && |v.fields["coordinates"].items| == 2
       && v.fields["coordinates"].items[0].Float?
       && v.fields["coordinates"].items[1].Float?
    then Some((v.fields["coordinates"].items[0].f, v.fields["coordinates"].items[1].f))
    else None
  }

  /** The stored point and its reading are inverse: a value reads as
      `(lon, lat)` exactly when it is the point built from them, so the
      longitude is stored first and nothing else is stored. */
  lemma GeoPointRoundTrip(v: Value, longitude: Coord, latitude: Coord)
    ensures PointCoordinates(v) == Some((longitude, latitude)) <==> v == GeoPoint(longitude, latitude)
  {
    if PointCoordinates(v) == Some((longitude, latitude)) {
      assert v.fields["coordinates"].items == [Float(longitude), Float(latitude)];
      assert v.fields == GeoPoint(longitude, latitude).fields;
    }
    if v == GeoPoint(longitude, latitude) {
      assert v.fields.Keys == {"type", "coordinates"};
    }
  }
}
